=== FILE: README.md ===
# Discretization engine of the TBB diffusion solver, in Dafny

This project models `cpu/tbb/discretization.c`, the numerical core of a 2-D
diffusion benchmark. The file has five parts:

- `set_mask` builds the 5-point Laplacian stencil.
- `compute_convolution` applies the stencil to every interior cell (`ComputeConvolution2D`).
- `step_in_time` performs one explicit Euler update (`StepInTime2D`).
- `analytical_value` is the closed-form solution `chi (1 - erf(x / sqrt(4 D t)))`.
- `check_solution` computes the parallel residual sum of squares against two superposed wall sources (`ResidualSumOfSquares2D`).

`double` is modelled as `real`, so the algebraic facts are exact.

A field is indexed `A[j][i]`:

- `j` runs over the columns of the TBB range, `[1, nx-1)`, which is the first array index, of length `nx`.
- `i` runs over the rows, `[1, ny-1)`, which is the second index, of length `ny`.

The in-place sweeps are methods over `array2<real>` buffers with
`Length0 == nx` and `Length1 == ny`. `compute_convolution` is proved against
the pure per-cell stencil sum `Stencil.Laplacian` over `seq<seq<real>>`;
`step_in_time` states the update `A + dt D C` per cell directly on the
buffers.

TBB's `parallel_for` becomes a sequential sweep over an arbitrary partition of
the interior into tiles, taken in an arbitrary order. `parallel_reduce`
becomes a recursive bisection `Tiling.Plan`. Each cut in a plan says whether
the upper half ran in a split body that was joined back afterwards, or in the
same body.

`erf` and `sqrt` from `<math.h>` have no definition over the reals. They are
therefore passed in as a value `Analytical.MathLib`. Every lemma about them
states the properties it needs, such as `erf(0) = 0` or "`erf` is
nondecreasing", as hypotheses.

Modules:

| file | module | contents |
|---|---|---|
| grid.dfy | `Grid` | fields, index ranges, tilings, sums over a range and how they split |
| tiling.dfy | `Tiling` | TBB bisection plans and the proof that their leaves partition the range |
| stencil.dfy | `Stencil` | `set_mask`, the per-cell stencil sum, and its algebra |
| kernels.dfy | `Kernels` | `compute_convolution` and `step_in_time` over buffers |
| analytical.dfy | `Analytical` | `analytical_value` |
| residual.dfy | `Residual` | the reduction body, `check_solution`, and the corrected residual |

Two behaviours of `check_solution` are worth stating up front, and the model follows the code in both:

- `bc` is a 2x2 table, but `check_solution` reads only `bc[1][0]` (`cpu/tbb/discretization.c:181`) and passes it as the strength of both wall sources. The other three entries never affect the result (`Residual.OnlyLowerLeftBoundaryMatters`).
- A residual normalised by the interior cell count should not depend on how TBB cuts the range. This one does, because `operator()` takes `nx` and `ny` from the tile it runs on (see Findings).

On the whole interior range, `operator()`'s local `nx = rows().size() + 2` equals the global `ny`, and its local `ny` equals the global `nx`. The midline `j < ny/2` therefore halves the first index, and the normaliser is the interior cell count. `Residual.Extents` keeps the local names.

## Model

| member | source | states |
|---|---|---|
| Stencil.SetMask | cpu/tbb/discretization.c:17-27 | `set_mask` sets the radius to 1 and writes exactly the five stencil entries. Up equals down and is positive. Left equals right and is positive. Every other entry, corners included, is left as the caller initialised it, and the shape is unchanged. The values of the coefficients are stated by `Stencil.FivePointForm`. |
| Stencil.MaskSumsToZero | cpu/tbb/discretization.c:22-26 | With zero corners, the nine mask entries sum to exactly 0 for every nonzero `dx`, `dy`. |
| Stencil.Laplacian | cpu/tbb/discretization.c:49-55 | The per-cell stencil sum in the loops' order. It is pinned down by `Stencil.NineTerms`, `Stencil.ConstantFieldHasZeroLaplacian`, `Stencil.FivePointForm` and `Stencil.QuadraticLaplacianIsExact` below, and `Kernels.StencilValue` proves the loops compute it. |
| Stencil.NineTerms | cpu/tbb/discretization.c:50-54 | At radius 1, the loop-order stencil sum is the sum of the nine products of the 3x3 window. |
| Stencil.ConstantFieldHasZeroLaplacian | cpu/tbb/discretization.c:17-55 | Take the `set_mask` stencil and a field holding one value everywhere. The stencil sum at every interior cell is 0, and its reads stay in bounds. |
| Stencil.FivePointForm | cpu/tbb/discretization.c:22-26 | With the `set_mask` coefficients, the stencil sum is the centred second difference along `j` scaled by `1/dy^2`, plus the one along `i` scaled by `1/dx^2`. |
| Stencil.QuadraticLaplacianIsExact | cpu/tbb/discretization.c:17-55 | The stencil is consistent. On any sampled quadratic `a y^2 + b x^2 + p j + q i + e`, it returns the exact Laplacian `2a + 2b` at every interior cell. |
| Kernels.AccumulateMaskRow | cpu/tbb/discretization.c:51-53 | The innermost loop adds one mask row's products to `value` in loop order, and every read is in bounds. |
| Kernels.StencilValue | cpu/tbb/discretization.c:49-54 | The two mask loops leave `value` equal to the stencil sum `Laplacian` of the field. A negative radius leaves 0. |
| Kernels.ConvolveColumn | cpu/tbb/discretization.c:48-56 | One column of a tile: exactly the tile's cells in column `j` receive their stencil sum, and every other cell of `C` keeps its value. |
| Kernels.ConvolveTile | cpu/tbb/discretization.c:40-58 | One `operator()` call writes the stencil sum into exactly the cells of its tile. |
| Kernels.ComputeConvolution | cpu/tbb/discretization.c:61-66 | Whatever the partition of `[1,nx-1) x [1,ny-1)` into tiles and whatever their order, every interior `C[j][i]` is the stencil sum of `A` around it, and no other cell of `C` changes. Only `C` is written. |
| Kernels.StepTile | cpu/tbb/discretization.c:80-93 | One `operator()` call writes `A + dt D C` into exactly the cells of its tile. |
| Kernels.StepInTime | cpu/tbb/discretization.c:96-103 | For every tiling: `B = A + dt D C` on every interior cell, the rest of `B` is unchanged, `B = A` on the interior when `D = 0` or `dt = 0`, and `elapsed` grows by exactly `dt`. |
| Tiling.LeavesPartition | cpu/tbb/discretization.c:65 | The tiles of every bisection TBB can make cover the range, lie inside it and are pairwise disjoint, so they are a valid tiling for the two sweeps. |
| Analytical.AnalyticalValue | cpu/tbb/discretization.c:105-108 | The closed form `chi (1 - erf(x / sqrt(4 D t)))`, with `erf` and `sqrt` supplied by the caller. Its behaviour is stated by the three lemmas below. |
| Analytical.ValueAtSource | cpu/tbb/discretization.c:105-108 | At distance 0 the closed form returns the source strength `chi`, given `erf(0) = 0`. |
| Analytical.DecreasesWithDistance | cpu/tbb/discretization.c:105-108 | For a nonnegative source and a nondecreasing `erf`, the value never increases with distance. |
| Analytical.BetweenZeroAndSource | cpu/tbb/discretization.c:105-108 | For nonnegative distance and strength, the value lies in `[0, chi]` when `erf` maps `[0, inf)` into `[0, 1]`. |
| Residual.LeftDistance | cpu/tbb/discretization.c:148-151 | The distance to the left-wall source: `dx (i-1)` below the midline `j < ny/2`, the `sqrt` of the squared offsets from it otherwise. `Residual.WholeRangeDistancesNonnegative` states it is nonnegative on the whole range, and it enters `Residual.CellTerm` through `Superposed`. |
| Residual.RightDistance | cpu/tbb/discretization.c:154-157 | The distance to the right-wall source: `dx (nx-2-i)` from the midline on, the `sqrt` form before it. `Residual.WholeRangeDistancesNonnegative` states it is nonnegative on the whole range; `Residual.RightWallIsTileLocal` shows it going negative on a tile as written. |
| Residual.Superposed | cpu/tbb/discretization.c:152-161 | `ca = cal + car`, the two `analytical_value` calls at the two distances with the same strength. `Residual.CellTerm` states the cell term vanishes exactly where the field equals it. |
| Residual.WholeRangeDistancesNonnegative | cpu/tbb/discretization.c:148-157 | With the whole interior's extents, the left-wall distance (`dx (i-1)` below the midline `j < ny/2`, the `sqrt` form above it) and the right-wall distance (`dx (nx-2-i)` from the midline on, the `sqrt` form before it) are both nonnegative at every interior cell, for `dx >= 0` and a nonnegative `sqrt`. |
| Residual.RightWallIsTileLocal | cpu/tbb/discretization.c:138-158 | As written, the right wall moves with the tile. On a 3x34 grid TBB cuts the 32 interior rows at 17, and neither 16-row half exceeds the grain 16, so both are final tiles. In the upper tile, local `nx = 18` puts cell `(1, 17)` at right-wall distance `-dx`. The whole range puts it at `15 dx`. |
| Residual.CellTerm | cpu/tbb/discretization.c:143-164 | A cell's contribution `(ca - cn)^2 / ((nx-2)(ny-2))` is never negative. It is zero exactly when the field equals the superposed analytical value `ca`. |
| Residual.Operator | cpu/tbb/discretization.c:128-168 | `operator()` continues `my_rss` with the cell terms of its tile. How its calls add up over a reduction is stated by `Residual.ReduceSumsTiles`. |
| Residual.SplitBody | cpu/tbb/discretization.c:124-125 | The splitting constructor copies the captured inputs and restarts `my_rss` at 0. `Residual.ReduceSumsTiles` depends on that restart. |
| Residual.Join | cpu/tbb/discretization.c:171-174 | `join` adds the other body's partial sum. `Residual.ReduceSumsTiles` depends on it. |
| Residual.Reduce | cpu/tbb/discretization.c:122-183 | `parallel_reduce` over a plan: every body that takes part, split or not, carries the inputs captured at construction. Its final `my_rss` is stated by `Residual.ReduceSumsTiles`. |
| Residual.ReduceSumsTiles | cpu/tbb/discretization.c:122-174 | The split/join protocol is sound. Split bodies start at 0, `operator()` continues a running sum, and `join` adds. So for every plan and every choice of stolen halves, the final `my_rss` is the starting value plus one tile sum per leaf. |
| Residual.FixedPlanTotal | cpu/tbb/discretization.c:128-174 | With `nx`, `ny` fixed for the whole reduction, the tile sums of any plan add up to the sum over the whole range. |
| Residual.PlanTotalNonnegative | cpu/tbb/discretization.c:164 | Every plan's total is a sum of nonnegative cell terms. |
| Residual.PlanTotalCountsTiles | cpu/tbb/discretization.c:128-174 | When every tile adds the same amount `e` to `my_rss`, a plan's total is `e` once per tile, whatever the cut points. |
| Residual.CheckSolution | cpu/tbb/discretization.c:177-186 | `check_solution` as written. Its properties are stated by `Residual.CheckSolutionNonnegative`, `Residual.OnlyLowerLeftBoundaryMatters`, `Residual.SingleTileIsMeanSquaredError`, `Residual.UniformFieldCountsTiles` and `Residual.TilingChangesCheckSolution`. |
| Residual.CheckSolutionCorrected | cpu/tbb/discretization.c:177-186 | `check_solution` with `nx`, `ny` taken once from the whole range. `Residual.CorrectedIgnoresTiling` states that it is the mean squared error for every plan. |
| Residual.MeanSquaredError | cpu/tbb/discretization.c:164 | The reference the residual is compared with. It sums the squared errors over the interior, with the midline at half the grid, and divides the total once by the `(nx-2)(ny-2)` interior cells. It does not use the per-cell normalised term. |
| Residual.TermsScaleSquaredErrors | cpu/tbb/discretization.c:164 | Dividing each cell's squared error by `(nx-2)(ny-2)` and then summing gives the same result as summing first and dividing once. |
| Residual.CheckSolutionNonnegative | cpu/tbb/discretization.c:164-185 | The residual is never negative, for every tiling. This holds both as written and corrected. |
| Residual.OnlyLowerLeftBoundaryMatters | cpu/tbb/discretization.c:181 | Both sources use `bc[1][0]`. Two boundary tables that agree there give the same residual. |
| Residual.SingleTileIsMeanSquaredError | cpu/tbb/discretization.c:138-139 | A consistency check on the finding below. When one tile covers the whole interior, the tile's own extents are the grid's, so the as-written result equals the reference mean squared error. |
| Residual.CorrectedIgnoresTiling | cpu/tbb/discretization.c:177-186 | With `nx`, `ny` taken from the whole range, the residual equals the mean squared error for every plan. It is then independent of grain size and schedule. |
| Residual.UniformTileSum | cpu/tbb/discretization.c:138-164 | As written, on a field holding `a` everywhere with `bc[1][0] = 0`, every nonempty tile adds exactly `a^2`, whatever its size. The reason is that each tile divides by its own cell count. |
| Residual.UniformFieldCountsTiles | cpu/tbb/discretization.c:138-139 | For every `erf`, `sqrt`, grid and plan: on a field holding `a` everywhere with `bc[1][0] = 0`, the as-written residual is `a^2` once per tile. |
| Residual.UniformFieldMean | cpu/tbb/discretization.c:164 | The mean squared error of that field is `a^2` on every grid with an interior. |
| Residual.TilingChangesCheckSolution | cpu/tbb/discretization.c:138-139 | As written, the residual depends on the tiling, with grain size 16. On a 19x3 grid holding `a != 0` with `bc[1][0] = 0`, the mean squared error is `a^2`. The two tiles of TBB's cut at column 9 yield `2 a^2`. |

## Left out

- The driver `common-diffusion/main.c` is not part of this model. It covers argument parsing, allocation, timers, CSV and PNG output, progress printing and buffer swapping. So are the I/O prototypes of `common-diffusion/output.h`.
- The stability-bound time step `dt = linStab h^2 / (4 D)` is also not modelled. It belongs to the driver; `step_in_time` accepts any `dt`.
- TBB scheduling, the grain size 16 and thread parallelism are abstracted:
  - `parallel_for` is a sequential sweep over an arbitrary tiling.
  - `parallel_reduce` is an arbitrary valid bisection plan.
  - Every result is proved for all of them, so no particular grain size is modelled.
- IEEE-754 rounding, infinities and NaN are not modelled; the model uses `real`. As a result:
  - `SetMask` requires `dx` and `dy` to be nonzero.
  - `AnalyticalValue` requires `sqrt(4 D t)` to be nonzero. The C code would produce inf or NaN there instead.
- The numerics of `erf` and `sqrt` are parameters. Only the formula's shape, the branch on `j < ny/2` and the argument expressions are modelled.
- Kernels.ComputeConvolution requires `C` to be a buffer other than `A` and `M`.
- Kernels.StepInTime requires `B` to be a buffer other than `A` and `C`.
- These two distinctness requirements are assumptions of the model: each sweep reads one buffer while writing another, and an aliased output would feed partly updated cells back into the stencil. The C code does not check them.
- The `int` product `(nx-2)*(ny-2)` in the normaliser is not modelled with 32-bit wrap-around. It overflows only for grids of more than about 46 000 cells on a side.
- Kernels.ComputeConvolution also requires the stencil reads to stay inside the buffers: `nm <= 1`, and a mask of at least `2 nm + 1` by `2 nm + 1`. The C code reads out of bounds otherwise; that behaviour is not modelled.
- The `double**` layout, an array of row pointers, is modelled as a rectangular `array2`, so aliasing between rows of one buffer is not modelled.

## Findings

| source | as written | input that shows it | evidently intended | confidence | as-written member | corrected member |
|---|---|---|---|---|---|---|
| cpu/tbb/discretization.c:138-139 | Each `operator()` call computes `nx`, `ny` from its own tile. Every tile then divides by its own cell count, uses its own midline `ny/2`, and places the right wall at its own `nx-2`. The result is a sum of per-tile means, and depends on the grain size and the schedule. | `nx = 19`, `ny = 3`, `A` holding `a != 0` everywhere, `bc[1][0] = 0`. Any `erf` and `sqrt` with `sqrt(4 D elapsed) != 0`, and any `dx`, `dy`. The 17 interior columns exceed the grain size 16 (line 179), so the range is divisible. When TBB splits it, it halves the columns at `1 + 17/2 = 9`, leaving tiles of 8 and 9 columns. Each tile adds `a^2`, so the result is `2 a^2`, not `a^2`. | Take `nx`, `ny` once from the whole range `blocked_range2d(1, ny-1, 1, nx-1)`, not from each tile. In `operator()`'s local names that is `rows().size() + 2` and `cols().size() + 2` of the whole range. The normaliser is then the interior cell count and the midline is the grid's, so the result is the mean squared error for every tiling. | high, not executed | Residual.TilingChangesCheckSolution | Residual.CorrectedIgnoresTiling |

=== FILE: analytical.dfy ===
/**
  `analytical_value` (cpu/tbb/discretization.c): the concentration
  `chi (1 - erf(x / sqrt(4 D t)))` at distance `x` from a constant source of
  strength `chi` after time `t` with diffusivity `D`.
 */
module Analytical {

  /** `erf` and `sqrt` from `<math.h>`. They have no definition over the reals
      here, so they are parameters: every lemma holds for whatever pair of
      functions is supplied, under the hypotheses it names. */
  datatype MathLib = MathLib(erf: real -> real, sqrt: real -> real)

  /** The denominator `sqrt(4 D t)` is nonzero, as it is for `D, t > 0`. */
  predicate Defined(lib: MathLib, t: real, D: real) {
    lib.sqrt(4.0 * D * t) != 0.0
  }

  function AnalyticalValue(lib: MathLib, x: real, t: real, D: real, chi: real): real
    requires Defined(lib, t, D)
  {
    chi * (1.0 - lib.erf(x / lib.sqrt(4.0 * D * t)))
  }

  /** `f` never decreases. */
  ghost predicate NonDecreasing(f: real -> real) {
    forall a, b :: a <= b ==> f(a) <= f(b)
  }

  /** At the source itself (`x = 0`) the closed form returns the source
      strength, because `erf(0) = 0`. */
  lemma ValueAtSource(lib: MathLib, t: real, D: real, chi: real)
    requires Defined(lib, t, D)
    requires lib.erf(0.0) == 0.0
    ensures AnalyticalValue(lib, 0.0, t, D, chi) == chi
  {
  }

  /** The concentration falls off with distance from a nonnegative source,
      since `erf` is nondecreasing and `sqrt(4 D t)` is positive. */
  lemma DecreasesWithDistance(lib: MathLib, x1: real, x2: real, t: real, D: real, chi: real)
    requires lib.sqrt(4.0 * D * t) > 0.0
    requires NonDecreasing(lib.erf)
    requires chi >= 0.0 && x1 <= x2
    ensures AnalyticalValue(lib, x2, t, D, chi) <= AnalyticalValue(lib, x1, t, D, chi)
  {
    var s := lib.sqrt(4.0 * D * t);
    assert x1 / s <= x2 / s by {
      assert x2 / s - x1 / s == (x2 - x1) / s;
    }
    var e1, e2 := lib.erf(x1 / s), lib.erf(x2 / s);
    assert e1 <= e2;
    assert chi * (1.0 - e2) <= chi * (1.0 - e1) by {
      assert chi * (1.0 - e1) - chi * (1.0 - e2) == chi * (e2 - e1);
    }
  }

  /** For a nonnegative distance the value lies between 0 and the source
      strength, given that `erf` maps nonnegative arguments into `[0, 1]`. */
  lemma BetweenZeroAndSource(lib: MathLib, x: real, t: real, D: real, chi: real)
    requires lib.sqrt(4.0 * D * t) > 0.0
    requires forall z :: z >= 0.0 ==> 0.0 <= lib.erf(z) <= 1.0
    requires chi >= 0.0 && x >= 0.0
    ensures 0.0 <= AnalyticalValue(lib, x, t, D, chi) <= chi
  {
    var s := lib.sqrt(4.0 * D * t);
    assert x / s >= 0.0;
    var e := lib.erf(x / s);
    assert 0.0 <= e <= 1.0;
    assert chi * (1.0 - e) <= chi by {
      assert chi - chi * (1.0 - e) == chi * e;
    }
  }
}

=== FILE: grid.dfy ===
/**
  Dense 2-D fields, the index ranges the TBB kernels sweep, and finite sums
  over rectangular ranges of a field.

  Index convention (as in cpu/tbb/discretization.c): a field is addressed
  `F[j][i]`; `j` walks the `cols()` of a `blocked_range2d` and the first index,
  whose extent is `nx`; `i` walks the `rows()` and the second index, whose
  extent is `ny`.
 */
module Grid {

  /** A field of concentration values; `F[j][i]` is one cell. */
  type Field = seq<seq<real>>

  /** `F` has `nx` rows (first index) of `ny` cells each (second index). */
  predicate IsField(F: Field, nx: int, ny: int) {
    |F| == nx && forall j :: 0 <= j < nx ==> |F[j]| == ny
  }

  /** A `tbb::blocked_range2d<int>`: `rows()` is `[rowLo, rowHi)` and ranges
      over `i`, `cols()` is `[colLo, colHi)` and ranges over `j`. */
  datatype Range2 = Range2(rowLo: int, rowHi: int, colLo: int, colHi: int) {

    /** Cell `(j, i)` is visited when the range is swept. */
    predicate Contains(j: int, i: int) {
      colLo <= j < colHi && rowLo <= i < rowHi
    }

    predicate IsEmpty() {
      rowHi <= rowLo || colHi <= colLo
    }

    /** Every cell of this range is a cell of `outer`. */
    predicate Inside(outer: Range2) {
      IsEmpty() ||
      (outer.rowLo <= rowLo && rowHi <= outer.rowHi && outer.colLo <= colLo && colHi <= outer.colHi)
    }
  }

  /** The range every kernel is launched on: rows `[1, ny-1)`, cols `[1, nx-1)`. */
  function Interior(nx: int, ny: int): Range2 {
    Range2(1, ny - 1, 1, nx - 1)
  }

  /** The range only reaches cells that exist in a field with `|F|` rows. */
  predicate Fits(F: Field, r: Range2) {
    r.IsEmpty() ||
    (0 <= r.colLo && r.colHi <= |F| && 0 <= r.rowLo &&
     forall j :: r.colLo <= j < r.colHi ==> r.rowHi <= |F[j]|)
  }

  /** `tiles` cover exactly the cells of `r`, each cell by exactly one tile. */
  ghost predicate IsPartition(tiles: seq<Range2>, r: Range2) {
    && (forall k :: 0 <= k < |tiles| ==> tiles[k].Inside(r))
    && (forall j, i :: r.Contains(j, i) ==> exists k :: 0 <= k < |tiles| && tiles[k].Contains(j, i))
    && (forall k, k', j, i :: 0 <= k < k' < |tiles| && tiles[k].Contains(j, i) ==> !tiles[k'].Contains(j, i))
  }

  /** Cell `(j, i)` lies in one of the first `n` tiles. */
  ghost predicate CoveredBy(tiles: seq<Range2>, n: int, j: int, i: int)
    requires 0 <= n <= |tiles|
  {
    exists k :: 0 <= k < n && tiles[k].Contains(j, i)
  }

  /** Sum of `F[j][i]` for `i` in `[lo, hi)`, accumulated in ascending `i`. */
  function RowRun(F: Field, j: int, lo: int, hi: int): real
    requires lo < hi ==> 0 <= j < |F| && 0 <= lo && hi <= |F[j]|
    decreases hi - lo
  {
    if hi <= lo then 0.0 else RowRun(F, j, lo, hi - 1) + F[j][hi - 1]
  }

  /** Sum over the cells of `r` with `j < colEnd`, in the sweep order of the
      kernels: `j` outer, `i` inner. */
  function ColRun(F: Field, r: Range2, colEnd: int): real
    requires Fits(F, r) && colEnd <= r.colHi
    decreases colEnd - r.colLo
  {
    if colEnd <= r.colLo then 0.0
    else ColRun(F, r, colEnd - 1) + RowRun(F, colEnd - 1, r.rowLo, r.rowHi)
  }

  /** Sum of `F` over all cells of `r`. */
  function RectSum(F: Field, r: Range2): real
    requires Fits(F, r)
  {
    ColRun(F, r, r.colHi)
  }

  lemma {:induction false} RowRunSplit(F: Field, j: int, lo: int, mid: int, hi: int)
    requires lo <= mid <= hi
    requires lo < hi ==> 0 <= j < |F| && 0 <= lo && hi <= |F[j]|
    ensures RowRun(F, j, lo, hi) == RowRun(F, j, lo, mid) + RowRun(F, j, mid, hi)
    decreases hi - mid
  {
    if mid < hi {
      RowRunSplit(F, j, lo, mid, hi - 1);
    }
  }

  /** The extent along which a range is cut in two. */
  datatype Axis = Rows | Cols

  /** The part of `r` below `mid` along `axis`. */
  function Lower(r: Range2, axis: Axis, mid: int): Range2 {
    if axis == Rows then r.(rowHi := mid) else r.(colHi := mid)
  }

  /** The part of `r` from `mid` on along `axis`. */
  function Upper(r: Range2, axis: Axis, mid: int): Range2 {
    if axis == Rows then r.(rowLo := mid) else r.(colLo := mid)
  }

  /** Cutting `r` anywhere strictly inside one of its extents splits its sum. */
  lemma {:induction false} RectSumSplit(F: Field, r: Range2, axis: Axis, mid: int)
    requires Fits(F, r)
    requires axis == Rows ==> r.rowLo < mid < r.rowHi
    requires axis == Cols ==> r.colLo < mid < r.colHi
    ensures Fits(F, Lower(r, axis, mid)) && Fits(F, Upper(r, axis, mid))
    ensures RectSum(F, r) == RectSum(F, Lower(r, axis, mid)) + RectSum(F, Upper(r, axis, mid))
  {
    if axis == Cols {
      ColsSplit(F, r, mid, r.colHi);
    } else {
      RowsSplit(F, r, mid, r.colHi);
    }
  }

  lemma {:induction false} ColsSplit(F: Field, r: Range2, mid: int, colEnd: int)
    requires Fits(F, r) && r.colLo < mid < r.colHi && mid <= colEnd <= r.colHi
    ensures Fits(F, r.(colHi := mid)) && Fits(F, r.(colLo := mid))
    ensures ColRun(F, r, colEnd) == RectSum(F, r.(colHi := mid)) + ColRun(F, r.(colLo := mid), colEnd)
    decreases colEnd - mid
  {
    if colEnd == mid {
      LowerColRun(F, r, mid, mid);
    } else {
      ColsSplit(F, r, mid, colEnd - 1);
    }
  }

  /** The lower part of a column cut sums like the prefix of the whole. */
  lemma {:induction false} LowerColRun(F: Field, r: Range2, mid: int, colEnd: int)
    requires Fits(F, r) && r.colLo < mid < r.colHi && colEnd <= mid
    ensures Fits(F, r.(colHi := mid))
    ensures ColRun(F, r, colEnd) == ColRun(F, r.(colHi := mid), colEnd)
    decreases colEnd - r.colLo
  {
    if colEnd > r.colLo {
      LowerColRun(F, r, mid, colEnd - 1);
    }
  }

  lemma {:induction false} RowsSplit(F: Field, r: Range2, mid: int, colEnd: int)
    requires Fits(F, r) && r.rowLo < mid < r.rowHi && colEnd <= r.colHi
    ensures Fits(F, r.(rowHi := mid)) && Fits(F, r.(rowLo := mid))
    ensures ColRun(F, r, colEnd) == ColRun(F, r.(rowHi := mid), colEnd) + ColRun(F, r.(rowLo := mid), colEnd)
    decreases colEnd - r.colLo
  {
    if colEnd > r.colLo {
      RowsSplit(F, r, mid, colEnd - 1);
      RowRunSplit(F, colEnd - 1, r.rowLo, mid, r.rowHi);
    }
  }

  /** A sum of cells that are all nonnegative is nonnegative. */
  lemma {:induction false} RectSumNonnegative(F: Field, r: Range2, colEnd: int)
    requires Fits(F, r) && colEnd <= r.colHi
    requires forall j, i :: r.Contains(j, i) ==> F[j][i] >= 0.0
    ensures ColRun(F, r, colEnd) >= 0.0
    decreases colEnd - r.colLo
  {
    if colEnd > r.colLo {
      RectSumNonnegative(F, r, colEnd - 1);
      RowRunNonnegative(F, r, colEnd - 1, r.rowHi);
    }
  }

  lemma {:induction false} RowRunNonnegative(F: Field, r: Range2, j: int, hi: int)
    requires Fits(F, r) && r.colLo <= j < r.colHi && hi <= r.rowHi
    requires forall jj, ii :: r.Contains(jj, ii) ==> F[jj][ii] >= 0.0
    ensures RowRun(F, j, r.rowLo, hi) >= 0.0
    decreases hi - r.rowLo
  {
    if hi > r.rowLo {
      RowRunNonnegative(F, r, j, hi - 1);
      assert r.Contains(j, hi - 1);
    }
  }

  /** `m` copies of `w` are `m - 1` copies and one more. */
  lemma OneMoreTimes(m: int, w: real)
    ensures m as real * w == (m - 1) as real * w + w
  {
  }

  /** A range whose cells all hold `v` sums to `v` once per cell: the
      columns before `colEnd` each add `v` once per row. */
  lemma {:induction false} ConstantColRun(F: Field, r: Range2, colEnd: int, v: real)
    requires Fits(F, r) && r.colLo <= colEnd <= r.colHi && r.rowLo <= r.rowHi
    requires forall j, i :: r.Contains(j, i) ==> F[j][i] == v
    ensures ColRun(F, r, colEnd) == (colEnd - r.colLo) as real * ((r.rowHi - r.rowLo) as real * v)
    decreases colEnd - r.colLo
  {
    if colEnd > r.colLo {
      ConstantColRun(F, r, colEnd - 1, v);
      ConstantRowRun(F, r, colEnd - 1, r.rowHi, v);
      OneMoreTimes(colEnd - r.colLo, (r.rowHi - r.rowLo) as real * v);
    }
  }

  /** A range whose cells all hold `v` sums to `v` times its cell count. */
  lemma ConstantRectSum(F: Field, r: Range2, v: real)
    requires Fits(F, r) && r.rowLo <= r.rowHi && r.colLo <= r.colHi
    requires forall j, i :: r.Contains(j, i) ==> F[j][i] == v
    ensures RectSum(F, r) == ((r.rowHi - r.rowLo) * (r.colHi - r.colLo)) as real * v
  {
    ConstantColRun(F, r, r.colHi, v);
    var rows, cols := r.rowHi - r.rowLo, r.colHi - r.colLo;
    assert (rows * cols) as real == rows as real * cols as real;
  }

  /** A range whose `n` cells each hold `k / n` sums to `k`. */
  lemma EvenShares(F: Field, r: Range2, k: real)
    requires Fits(F, r) && !r.IsEmpty() && (r.rowHi - r.rowLo) * (r.colHi - r.colLo) > 0
    requires forall j, i :: r.Contains(j, i) ==> F[j][i] == k / ((r.rowHi - r.rowLo) * (r.colHi - r.colLo)) as real
    ensures RectSum(F, r) == k
  {
    var n := ((r.rowHi - r.rowLo) * (r.colHi - r.colLo)) as real;
    ConstantRectSum(F, r, k / n);
    assert n * (k / n) == k;
  }

  /** A range whose cells all hold `v` averages to `v`. */
  lemma ConstantMean(F: Field, r: Range2, v: real)
    requires Fits(F, r) && !r.IsEmpty() && (r.rowHi - r.rowLo) * (r.colHi - r.colLo) > 0
    requires forall j, i :: r.Contains(j, i) ==> F[j][i] == v
    ensures RectSum(F, r) / ((r.rowHi - r.rowLo) * (r.colHi - r.colLo)) as real == v
  {
    var n := ((r.rowHi - r.rowLo) * (r.colHi - r.colLo)) as real;
    ConstantRectSum(F, r, v);
    assert n * v / n == v;
  }

  lemma {:induction false} ConstantRowRun(F: Field, r: Range2, j: int, hi: int, v: real)
    requires Fits(F, r) && r.colLo <= j < r.colHi && r.rowLo <= hi <= r.rowHi
    requires forall jj, ii :: r.Contains(jj, ii) ==> F[jj][ii] == v
    ensures RowRun(F, j, r.rowLo, hi) == (hi - r.rowLo) as real * v
    decreases hi - r.rowLo
  {
    if hi > r.rowLo {
      ConstantRowRun(F, r, j, hi - 1, v);
      assert r.Contains(j, hi - 1) && F[j][hi - 1] == v;
      assert RowRun(F, j, r.rowLo, hi) == RowRun(F, j, r.rowLo, hi - 1) + v;
      OneMoreTimes(hi - r.rowLo, v);
    }
  }

  /** Scaling every cell of a range by `k` scales its sum by `k`. */
  lemma {:induction false} ScaledColRun(F: Field, G: Field, r: Range2, colEnd: int, k: real)
    requires Fits(F, r) && Fits(G, r) && colEnd <= r.colHi
    requires forall j, i :: r.Contains(j, i) ==> F[j][i] == G[j][i] * k
    ensures ColRun(F, r, colEnd) == ColRun(G, r, colEnd) * k
    decreases colEnd - r.colLo
  {
    if colEnd > r.colLo {
      ScaledColRun(F, G, r, colEnd - 1, k);
      ScaledRowRun(F, G, r, colEnd - 1, r.rowHi, k);
    }
  }

  /** Dividing every cell of a range by `n` divides its sum by `n`. */
  lemma DividedRectSum(F: Field, G: Field, r: Range2, n: real)
    requires Fits(F, r) && Fits(G, r) && n != 0.0
    requires forall j, i :: r.Contains(j, i) ==> F[j][i] == G[j][i] * (1.0 / n)
    ensures RectSum(F, r) == RectSum(G, r) / n
  {
    ScaledColRun(F, G, r, r.colHi, 1.0 / n);
    var total := RectSum(G, r);
    assert total / n == total * (1.0 / n);
  }

  lemma {:induction false} ScaledRowRun(F: Field, G: Field, r: Range2, j: int, hi: int, k: real)
    requires Fits(F, r) && Fits(G, r) && r.colLo <= j < r.colHi && hi <= r.rowHi
    requires forall jj, ii :: r.Contains(jj, ii) ==> F[jj][ii] == G[jj][ii] * k
    ensures RowRun(F, j, r.rowLo, hi) == RowRun(G, j, r.rowLo, hi) * k
    decreases hi - r.rowLo
  {
    if hi > r.rowLo {
      ScaledRowRun(F, G, r, j, hi - 1, k);
      assert r.Contains(j, hi - 1);
    }
  }
}

=== FILE: kernels.dfy ===
/**
  The two in-place sweeps of cpu/tbb/discretization.c over `array2<real>`
  buffers: `compute_convolution` (`ComputeConvolution2D`) and `step_in_time`
  (`StepInTime2D`).

  A buffer `X` holds the field `X[j, i]` with `X.Length0 == nx` and
  `X.Length1 == ny`. TBB's `parallel_for` is modelled as a sequential sweep
  over an arbitrary partition of the interior into tiles, taken in an
  arbitrary order: the contracts below do not mention the tiles, so every
  partition and every order leave the same output.
 */
module Kernels {
  import opened Grid
  import opened Stencil

  /** The field a buffer currently holds. */
  function Snapshot(X: array2<real>): (F: Field)
    reads X
    ensures IsField(F, X.Length0, X.Length1)
    ensures forall j, i :: 0 <= j < X.Length0 && 0 <= i < X.Length1 ==> F[j][i] == X[j, i]
  {
    seq(X.Length0, j requires 0 <= j < X.Length0 reads X =>
      seq(X.Length1, i requires 0 <= i < X.Length1 reads X => X[j, i]))
  }

  /** Every read of the stencil centred on `(j, i)` stays inside the buffers. */
  predicate BufferWindowFits(A: array2<real>, M: array2<real>, nm: int, j: int, i: int) {
    nm >= 0 ==>
      && M.Length0 >= 2 * nm + 1 && M.Length1 >= 2 * nm + 1
      && nm <= j < A.Length0 - nm && nm <= i < A.Length1 - nm
  }

  /** The reads of a whole convolution stay in bounds: the kernel reaches
      `nm` cells beyond the interior, and the halo is one cell wide. */
  predicate ConvolutionFits(nx: int, ny: int, nm: int, M: array2<real>) {
    Interior(nx, ny).IsEmpty() || (nm <= 1 && M.Length0 >= 2 * nm + 1 && M.Length1 >= 2 * nm + 1)
  }

  /** The innermost loop of `ComputeConvolution2D::operator()`: adds mask
      row `mj` to `value`, one product at a time. */
  method AccumulateMaskRow(A: array2<real>, M: array2<real>, nm: int, j: int, i: int, mj: int, value: real)
    returns (sum: real)
    requires nm >= 0 && BufferWindowFits(A, M, nm, j, i) && -nm <= mj <= nm
    ensures WindowFits(Snapshot(A), Snapshot(M), nm, j, i)
    ensures sum == value + MaskRow(Snapshot(A), Snapshot(M), nm, j, i, mj, nm + 1)
  {
    ghost var a, m := Snapshot(A), Snapshot(M);
    sum := value;
    var mi := -nm;
    while mi < nm + 1
      invariant -nm <= mi <= nm + 1
      invariant sum == value + MaskRow(a, m, nm, j, i, mj, mi)
    {
      sum := sum + M[mj + nm, mi + nm] * A[j + mj, i + mi];
      mi := mi + 1;
    }
  }

  /** The two innermost loops of `ComputeConvolution2D::operator()`: the
      stencil sum at one cell, accumulated into `value` in loop order. */
  method StencilValue(A: array2<real>, M: array2<real>, nm: int, j: int, i: int) returns (value: real)
    requires BufferWindowFits(A, M, nm, j, i)
    ensures WindowFits(Snapshot(A), Snapshot(M), nm, j, i)
    ensures value == Laplacian(Snapshot(A), Snapshot(M), nm, j, i)
  {
    ghost var a, m := Snapshot(A), Snapshot(M);
    value := 0.0;
    var mj := -nm;
    while mj < nm + 1
      invariant nm >= 0 ==> -nm <= mj <= nm + 1
      invariant value == if nm < 0 then 0.0 else MaskRows(a, m, nm, j, i, mj)
    {
      value := AccumulateMaskRow(A, M, nm, j, i, mj, value);
      mj := mj + 1;
    }
  }

  /** The inner loop of `ComputeConvolution2D::operator()`: column `j` of
      one tile. */
  method ConvolveColumn(A: array2<real>, C: array2<real>, M: array2<real>, nx: int, ny: int, nm: int,
                        t: Range2, j: int)
    modifies C
    requires C != A && C != M
    requires A.Length0 == nx && A.Length1 == ny && C.Length0 == nx && C.Length1 == ny
    requires ConvolutionFits(nx, ny, nm, M)
    requires t.Inside(Interior(nx, ny)) && t.colLo <= j < t.colHi
    ensures forall jj, ii :: 0 <= jj < nx && 0 <= ii < ny ==>
              C[jj, ii] == if jj == j && t.rowLo <= ii < t.rowHi then Laplacian(Snapshot(A), Snapshot(M), nm, jj, ii)
                           else old(C[jj, ii])
  {
    ghost var a, m := Snapshot(A), Snapshot(M);
    var i := t.rowLo;
    while i < t.rowHi
      invariant i == t.rowLo || t.rowLo <= i <= t.rowHi
      invariant Snapshot(A) == a && Snapshot(M) == m
      invariant forall jj, ii :: 0 <= jj < nx && 0 <= ii < ny ==>
                  C[jj, ii] == if jj == j && t.rowLo <= ii < i then Laplacian(a, m, nm, jj, ii) else old(C[jj, ii])
    {
      var v := StencilValue(A, M, nm, j, i);
      C[j, i] := v;
      i := i + 1;
    }
  }

  /** `ComputeConvolution2D::operator()` on one tile. */
  method ConvolveTile(A: array2<real>, C: array2<real>, M: array2<real>, nx: int, ny: int, nm: int, t: Range2)
    modifies C
    requires C != A && C != M
    requires A.Length0 == nx && A.Length1 == ny && C.Length0 == nx && C.Length1 == ny
    requires ConvolutionFits(nx, ny, nm, M)
    requires t.Inside(Interior(nx, ny))
    ensures forall j, i :: 0 <= j < nx && 0 <= i < ny ==>
              C[j, i] == if t.Contains(j, i) then Laplacian(Snapshot(A), Snapshot(M), nm, j, i) else old(C[j, i])
  {
    ghost var a, m := Snapshot(A), Snapshot(M);
    var j := t.colLo;
    while j < t.colHi
      invariant t.colLo <= j || t.IsEmpty()
      invariant Snapshot(A) == a && Snapshot(M) == m
      invariant forall jj, ii :: 0 <= jj < nx && 0 <= ii < ny ==>
                  C[jj, ii] == if t.Contains(jj, ii) && jj < j then Laplacian(a, m, nm, jj, ii) else old(C[jj, ii])
    {
      ConvolveColumn(A, C, M, nx, ny, nm, t, j);
      j := j + 1;
    }
  }

  /** `compute_convolution`: every interior cell of `C` receives the stencil
      sum of `A` around it, every other cell of `C` keeps its value, and the
      result does not depend on how the interior is tiled or in which order
      the tiles run. `A` and `M` are only read. */
  method ComputeConvolution(A: array2<real>, C: array2<real>, M: array2<real>, nx: int, ny: int, nm: int,
                            tiles: seq<Range2>)
    modifies C
    requires C != A && C != M
    requires A.Length0 == nx && A.Length1 == ny && C.Length0 == nx && C.Length1 == ny
    requires ConvolutionFits(nx, ny, nm, M)
    requires IsPartition(tiles, Interior(nx, ny))
    ensures forall j, i :: Interior(nx, ny).Contains(j, i) ==>
              C[j, i] == Laplacian(Snapshot(A), Snapshot(M), nm, j, i)
    ensures forall j, i :: 0 <= j < nx && 0 <= i < ny && !Interior(nx, ny).Contains(j, i) ==>
              C[j, i] == old(C[j, i])
  {
    ghost var a, m := Snapshot(A), Snapshot(M);
    var k := 0;
    while k < |tiles|
      invariant 0 <= k <= |tiles|
      invariant Snapshot(A) == a && Snapshot(M) == m
      invariant forall j, i :: 0 <= j < nx && 0 <= i < ny ==>
                  C[j, i] == if CoveredBy(tiles, k, j, i) then Laplacian(a, m, nm, j, i) else old(C[j, i])
    {
      ConvolveTile(A, C, M, nx, ny, nm, tiles[k]);
      k := k + 1;
    }
  }

  /** `StepInTime2D::operator()` on one tile. */
  method StepTile(A: array2<real>, B: array2<real>, C: array2<real>, nx: int, ny: int, D: real, dt: real, t: Range2)
    modifies B
    requires B != A && B != C
    requires A.Length0 == nx && A.Length1 == ny && B.Length0 == nx && B.Length1 == ny
    requires C.Length0 == nx && C.Length1 == ny
    requires t.Inside(Interior(nx, ny))
    ensures forall j, i :: 0 <= j < nx && 0 <= i < ny ==>
              B[j, i] == if t.Contains(j, i) then A[j, i] + dt * D * C[j, i] else old(B[j, i])
  {
    var j := t.colLo;
    while j < t.colHi
      invariant t.colLo <= j || t.IsEmpty()
      invariant forall jj, ii :: 0 <= jj < nx && 0 <= ii < ny ==>
                  B[jj, ii] == if t.Contains(jj, ii) && jj < j then A[jj, ii] + dt * D * C[jj, ii] else old(B[jj, ii])
    {
      var i := t.rowLo;
      while i < t.rowHi
        invariant t.rowLo <= i
        invariant forall jj, ii :: 0 <= jj < nx && 0 <= ii < ny ==>
                    B[jj, ii] == if t.Contains(jj, ii) && (jj < j || (jj == j && ii < i))
                                 then A[jj, ii] + dt * D * C[jj, ii] else old(B[jj, ii])
      {
        B[j, i] := A[j, i] + dt * D * C[j, i];
        i := i + 1;
      }
      j := j + 1;
    }
  }

  /** `step_in_time`: one explicit Euler step `B = A + dt D C` on every
      interior cell, the rest of `B` untouched, whatever the tiling; the
      elapsed-time accumulator `*elapsed` advances by exactly `dt`. */
  method StepInTime(A: array2<real>, B: array2<real>, C: array2<real>, nx: int, ny: int, D: real, dt: real,
                    elapsed: real, tiles: seq<Range2>) returns (elapsedAfter: real)
    modifies B
    requires B != A && B != C
    requires A.Length0 == nx && A.Length1 == ny && B.Length0 == nx && B.Length1 == ny
    requires C.Length0 == nx && C.Length1 == ny
    requires IsPartition(tiles, Interior(nx, ny))
    ensures forall j, i :: Interior(nx, ny).Contains(j, i) ==> B[j, i] == A[j, i] + dt * D * C[j, i]
    ensures forall j, i :: 0 <= j < nx && 0 <= i < ny && !Interior(nx, ny).Contains(j, i) ==>
              B[j, i] == old(B[j, i])
    ensures D == 0.0 || dt == 0.0 ==> forall j, i :: Interior(nx, ny).Contains(j, i) ==> B[j, i] == A[j, i]
    ensures elapsedAfter == elapsed + dt
  {
    var k := 0;
    while k < |tiles|
      invariant 0 <= k <= |tiles|
      invariant forall j, i :: 0 <= j < nx && 0 <= i < ny ==>
                  B[j, i] == if CoveredBy(tiles, k, j, i) then A[j, i] + dt * D * C[j, i] else old(B[j, i])
    {
      StepTile(A, B, C, nx, ny, D, dt, tiles[k]);
      k := k + 1;
    }
    elapsedAfter := elapsed + dt;
  }
}

=== FILE: residual.dfy ===
/**
  `ResidualSumOfSquares2D` and `check_solution` (cpu/tbb/discretization.c):
  the squared difference between the field and the superposition of two
  analytical wall sources, reduced over the interior by `parallel_reduce`.

  The reduction body is a value: `Operator` is `operator()` on one tile,
  `SplitBody` the splitting constructor, `Join` is `join`. A `Plan` fixes how
  TBB cut the interior and which halves were handed to split bodies.
 */
module Residual {
  import opened Grid
  import opened Tiling
  import opened Analytical

  /** What the functor captures at construction; `c` is the strength of both
      sources. */
  datatype Inputs = Inputs(lib: MathLib, A: Field, dx: real, dy: real, elapsed: real, D: real, c: real)

  /** The `nx`, `ny` that `operator()` computes before its loops. */
  datatype Extents = Extents(nx: int, ny: int)

  /** `nx = r.rows().size() + 2`, `ny = r.cols().size() + 2`. */
  function TileExtents(r: Range2): Extents {
    Extents(r.rowHi - r.rowLo + 2, r.colHi - r.colLo + 2)
  }

  /** Extents of a range holding at least one cell; the normaliser
      `(nx-2)(ny-2)` is then positive. */
  predicate Positive(g: Extents) {
    g.nx > 2 && g.ny > 2
  }

  /** Shortest distance from cell `(j, i)` to the left-wall source. */
  function LeftDistance(inp: Inputs, g: Extents, j: int, i: int): real {
    if j < g.ny / 2 then inp.dx * (i - 1) as real
    else inp.lib.sqrt(inp.dx * inp.dx * (i - 1) as real * (i - 1) as real
                      + inp.dy * inp.dy * (j - g.ny / 2) as real * (j - g.ny / 2) as real)
  }

  /** Shortest distance from cell `(j, i)` to the right-wall source. */
  function RightDistance(inp: Inputs, g: Extents, j: int, i: int): real {
    if j >= g.ny / 2 then inp.dx * (g.nx - 2 - i) as real
    else inp.lib.sqrt(inp.dx * inp.dx * (g.nx - 2 - i) as real * (g.nx - 2 - i) as real
                      + inp.dy * inp.dy * (g.ny / 2 - j) as real * (g.ny / 2 - j) as real)
  }

  /** With the whole interior's extents, both wall distances are nonnegative
      at every interior cell, on either side of the midline: `i - 1` and
      `nx - 2 - i` are then offsets inside the grid. */
  lemma WholeRangeDistancesNonnegative(inp: Inputs, nx: int, ny: int, j: int, i: int)
    requires Interior(nx, ny).Contains(j, i) && inp.dx >= 0.0
    requires forall y :: inp.lib.sqrt(y) >= 0.0
    ensures LeftDistance(inp, TileExtents(Interior(nx, ny)), j, i) >= 0.0
    ensures RightDistance(inp, TileExtents(Interior(nx, ny)), j, i) >= 0.0
  {
    var g := TileExtents(Interior(nx, ny));
    assert g.nx - 2 - i >= 0 && i - 1 >= 0;
    NonnegativeTimes(inp.dx, i - 1);
    NonnegativeTimes(inp.dx, g.nx - 2 - i);
  }

  lemma NonnegativeTimes(d: real, k: int)
    requires d >= 0.0 && k >= 0
    ensures d * k as real >= 0.0
  {
  }

  /** The superposed analytical solution `ca = cal + car` at `(j, i)`. */
  function Superposed(inp: Inputs, g: Extents, j: int, i: int): real
    requires Defined(inp.lib, inp.elapsed, inp.D)
  {
    AnalyticalValue(inp.lib, LeftDistance(inp, g, j, i), inp.elapsed, inp.D, inp.c)
    + AnalyticalValue(inp.lib, RightDistance(inp, g, j, i), inp.elapsed, inp.D, inp.c)
  }

  /** What one cell adds to the running sum: its squared error divided by the
      cell count `(nx-2)(ny-2)` of extents `g`. It is never negative, and it
      is zero exactly where the field agrees with the analytical solution. */
  function CellTerm(inp: Inputs, g: Extents, j: int, i: int): (term: real)
    requires Defined(inp.lib, inp.elapsed, inp.D) && Positive(g)
    requires 0 <= j < |inp.A| && 0 <= i < |inp.A[j]|
    ensures term >= 0.0
    ensures term == 0.0 <==> inp.A[j][i] == Superposed(inp, g, j, i)
  {
    var diff := Superposed(inp, g, j, i) - inp.A[j][i];
    ProductPositive(g.nx - 2, g.ny - 2);
    Quotient(Square(diff), ((g.nx - 2) * (g.ny - 2)) as real)
  }

  /** `d * d`, which is never negative and vanishes only at zero. */
  function Square(d: real): (s: real)
    ensures s == d * d
    ensures s >= 0.0
    ensures s == 0.0 <==> d == 0.0
  {
    if d >= 0.0 then Product(d, d) else Product(-d, -d)
  }

  /** `a * b`, positive for positive factors. */
  function Product(a: real, b: real): (r: real)
    ensures a > 0.0 && b > 0.0 ==> r > 0.0
  {
    a * b
  }

  /** `a / n` for a nonnegative `a` and a positive count `n`: nonnegative, and
      zero exactly when `a` is. */
  function Quotient(a: real, n: real): (q: real)
    requires a >= 0.0 && n > 0.0
    ensures q >= 0.0
    ensures q == 0.0 <==> a == 0.0
  {
    assert (a / n) * n == a;
    a / n
  }

  lemma ProductPositive(a: int, b: int)
    requires a > 0 && b > 0
    ensures a * b > 0
  {
  }

  /** `CellTerm` at every cell of the field. */
  function Terms(inp: Inputs, g: Extents): (T: Field)
    requires Defined(inp.lib, inp.elapsed, inp.D) && Positive(g)
    ensures |T| == |inp.A| && forall j :: 0 <= j < |T| ==> |T[j]| == |inp.A[j]|
    ensures forall j, i :: 0 <= j < |T| && 0 <= i < |T[j]| ==> T[j][i] == CellTerm(inp, g, j, i)
  {
    seq(|inp.A|, j requires 0 <= j < |inp.A| =>
      seq(|inp.A[j]|, i requires 0 <= i < |inp.A[j]| => CellTerm(inp, g, j, i)))
  }

  /** Where `operator()` takes `nx`, `ny` from: the tile it is running on, as
      the source does, or one fixed set of extents. */
  datatype Geometry = PerTile | Fixed(g: Extents)

  /** The extents `operator()` uses on range `r`. */
  function ExtentsOn(geometry: Geometry, r: Range2): Extents {
    match geometry
    case PerTile => TileExtents(r)
    case Fixed(g) => g
  }

  /** The part of a reduction body that never changes after construction. */
  datatype Functor = Functor(inp: Inputs, geometry: Geometry)

  /** A reduction body: its functor and the running sum `my_rss`. */
  datatype Body = Body(f: Functor, rss: real)

  /** The functor can run on any nonempty range of its field. */
  predicate Runnable(f: Functor) {
    Defined(f.inp.lib, f.inp.elapsed, f.inp.D) && (f.geometry.Fixed? ==> Positive(f.geometry.g))
  }

  /** What one call of `operator()` on `r` adds to `my_rss`. The loops do not
      run on an empty range. */
  function TileSum(f: Functor, r: Range2): real
    requires Runnable(f) && Fits(f.inp.A, r)
  {
    if r.IsEmpty() then 0.0 else RectSum(Terms(f.inp, ExtentsOn(f.geometry, r)), r)
  }

  /** `operator()`: continues the body's running sum over the cells of `r`. */
  function Operator(b: Body, r: Range2): Body
    requires Runnable(b.f) && Fits(b.f.inp.A, r)
  {
    b.(rss := b.rss + TileSum(b.f, r))
  }

  /** The splitting constructor: same captured inputs, `my_rss = 0`. */
  function SplitBody(b: Body): Body {
    b.(rss := 0.0)
  }

  /** `join`: adds the other body's partial sum. */
  function Join(b: Body, other: Body): Body {
    b.(rss := b.rss + other.rss)
  }

  /** `parallel_reduce` of body `b` over `r` as cut by plan `p`. A stolen
      upper half runs in a split body that is joined afterwards; otherwise the
      same body carries on into the upper half. */
  function Reduce(b: Body, p: Plan, r: Range2): (b': Body)
    requires Runnable(b.f) && Fits(b.f.inp.A, r) && ValidPlan(p, r)
    ensures b'.f == b.f
    decreases p
  {
    match p
    case Whole => Operator(b, r)
    case Bisect(axis, mid, stolen, lo, up) =>
      assert Fits(b.f.inp.A, Lower(r, axis, mid)) && Fits(b.f.inp.A, Upper(r, axis, mid));
      var left := Reduce(b, lo, Lower(r, axis, mid));
      if stolen then Join(left, Reduce(SplitBody(b), up, Upper(r, axis, mid)))
      else Reduce(left, up, Upper(r, axis, mid))
  }

  /** The sum of `TileSum` over the tiles of a plan. */
  function PlanTotal(f: Functor, p: Plan, r: Range2): real
    requires Runnable(f) && Fits(f.inp.A, r) && ValidPlan(p, r)
  {
    match p
    case Whole => TileSum(f, r)
    case Bisect(axis, mid, _, lo, up) =>
      assert Fits(f.inp.A, Lower(r, axis, mid)) && Fits(f.inp.A, Upper(r, axis, mid));
      PlanTotal(f, lo, Lower(r, axis, mid)) + PlanTotal(f, up, Upper(r, axis, mid))
  }

  /** The reduction protocol is sound: a split body starts from zero and
      `join` adds partial sums, so whichever halves were stolen, the final
      `my_rss` is the starting value plus one `operator()` contribution per
      tile. */
  lemma {:induction false} ReduceSumsTiles(b: Body, p: Plan, r: Range2)
    requires Runnable(b.f) && Fits(b.f.inp.A, r) && ValidPlan(p, r)
    ensures Reduce(b, p, r).rss == b.rss + PlanTotal(b.f, p, r)
    decreases p
  {
    match p
    case Whole =>
    case Bisect(axis, mid, stolen, lo, up) =>
      var rl, ru := Lower(r, axis, mid), Upper(r, axis, mid);
      ReduceSumsTiles(b, lo, rl);
      if stolen {
        ReduceSumsTiles(SplitBody(b), up, ru);
      } else {
        ReduceSumsTiles(Reduce(b, lo, rl), up, ru);
      }
  }

  /** With extents fixed once for the whole reduction, the tiles of any valid
      plan add up to the sum over the whole range. */
  lemma {:induction false} FixedPlanTotal(f: Functor, p: Plan, r: Range2)
    requires f.geometry.Fixed? && Runnable(f) && Fits(f.inp.A, r) && ValidPlan(p, r)
    ensures PlanTotal(f, p, r) == RectSum(Terms(f.inp, f.geometry.g), r)
  {
    var T := Terms(f.inp, f.geometry.g);
    match p
    case Whole =>
      if r.IsEmpty() {
        assert ColRun(T, r, r.colHi) == 0.0 by {
          EmptyRangeSumsToZero(T, r, r.colHi);
        }
      }
    case Bisect(axis, mid, _, lo, up) =>
      FixedPlanTotal(f, lo, Lower(r, axis, mid));
      FixedPlanTotal(f, up, Upper(r, axis, mid));
      RectSumSplit(T, r, axis, mid);
  }

  /** An empty range sums to zero. */
  lemma {:induction false} EmptyRangeSumsToZero(T: Field, r: Range2, colEnd: int)
    requires Fits(T, r) && colEnd <= r.colHi && r.IsEmpty()
    ensures ColRun(T, r, colEnd) == 0.0
    decreases colEnd - r.colLo
  {
    if colEnd > r.colLo {
      EmptyRangeSumsToZero(T, r, colEnd - 1);
    }
  }

  /** Every plan's total is a sum of nonnegative terms. */
  lemma {:induction false} PlanTotalNonnegative(f: Functor, p: Plan, r: Range2)
    requires Runnable(f) && Fits(f.inp.A, r) && ValidPlan(p, r)
    ensures PlanTotal(f, p, r) >= 0.0
  {
    match p
    case Whole =>
      if !r.IsEmpty() {
        var T := Terms(f.inp, ExtentsOn(f.geometry, r));
        RectSumNonnegative(T, r, r.colHi);
      }
    case Bisect(axis, mid, _, lo, up) =>
      PlanTotalNonnegative(f, lo, Lower(r, axis, mid));
      PlanTotalNonnegative(f, up, Upper(r, axis, mid));
  }

  /** `double bc[2][2]`. */
  predicate IsBoundary(bc: seq<seq<real>>) {
    |bc| == 2 && |bc[0]| == 2 && |bc[1]| == 2
  }

  /** The inputs `check_solution` hands to the functor: `bc[1][0]` is the
      strength of both sources. */
  function CheckInputs(lib: MathLib, A: Field, dx: real, dy: real, elapsed: real, D: real,
                       bc: seq<seq<real>>): Inputs
    requires IsBoundary(bc)
  {
    Inputs(lib, A, dx, dy, elapsed, D, bc[1][0])
  }

  /** What the caller must supply: an `nx` by `ny` field, a 2x2 boundary
      table, a cut of the interior TBB could make, and a time at which the
      analytical solution is defined whenever there is a cell to compare. */
  predicate CheckArgs(lib: MathLib, A: Field, nx: int, ny: int, elapsed: real, D: real,
                      bc: seq<seq<real>>, p: Plan) {
    && IsField(A, nx, ny) && IsBoundary(bc) && ValidPlan(p, Interior(nx, ny))
    && (!Interior(nx, ny).IsEmpty() ==> Defined(lib, elapsed, D))
  }

  /** `check_solution` as written: every `operator()` call derives `nx`,
      `ny` (and so the normaliser and the midline `ny/2`) from the tile it is
      running on. The range is empty when `nx` or `ny` is below 3, and then
      no body runs. */
  function CheckSolution(lib: MathLib, A: Field, nx: int, ny: int, dx: real, dy: real, elapsed: real,
                         D: real, bc: seq<seq<real>>, p: Plan): real
    requires CheckArgs(lib, A, nx, ny, elapsed, D, bc, p)
  {
    if Interior(nx, ny).IsEmpty() then 0.0
    else Reduce(Body(Functor(CheckInputs(lib, A, dx, dy, elapsed, D, bc), PerTile), 0.0), p, Interior(nx, ny)).rss
  }

  /** `check_solution` with `nx`, `ny` taken once from the whole interior
      range instead of from each tile. */
  function CheckSolutionCorrected(lib: MathLib, A: Field, nx: int, ny: int, dx: real, dy: real,
                                  elapsed: real, D: real, bc: seq<seq<real>>, p: Plan): real
    requires CheckArgs(lib, A, nx, ny, elapsed, D, bc, p)
  {
    if Interior(nx, ny).IsEmpty() then 0.0
    else
      var g := TileExtents(Interior(nx, ny));
      Reduce(Body(Functor(CheckInputs(lib, A, dx, dy, elapsed, D, bc), Fixed(g)), 0.0), p, Interior(nx, ny)).rss
  }

  /** The squared error `(ca - A[j][i])^2` of every cell against the
      superposition under extents `g`, before any normalisation. */
  function SquaredErrors(inp: Inputs, g: Extents): (E: Field)
    requires Defined(inp.lib, inp.elapsed, inp.D)
    ensures |E| == |inp.A| && forall j :: 0 <= j < |E| ==> |E[j]| == |inp.A[j]|
    ensures forall j, i :: 0 <= j < |E| && 0 <= i < |E[j]| ==> E[j][i] == Square(Superposed(inp, g, j, i) - inp.A[j][i])
  {
    seq(|inp.A|, j requires 0 <= j < |inp.A| =>
      seq(|inp.A[j]|, i requires 0 <= i < |inp.A[j]| => Square(Superposed(inp, g, j, i) - inp.A[j][i])))
  }

  /** The quantity the residual is meant to be: the total squared error over
      the interior, with the midline at half the first index's extent `nx`,
      divided once by the number `(nx-2)(ny-2)` of interior cells. In the
      local names of `operator()` the whole grid's extents are
      `Extents(ny, nx)`. */
  function MeanSquaredError(lib: MathLib, A: Field, nx: int, ny: int, dx: real, dy: real,
                            elapsed: real, D: real, bc: seq<seq<real>>): real
    requires IsField(A, nx, ny) && IsBoundary(bc)
    requires !Interior(nx, ny).IsEmpty() ==> Defined(lib, elapsed, D)
  {
    if Interior(nx, ny).IsEmpty() then 0.0
    else
      var inp := CheckInputs(lib, A, dx, dy, elapsed, D, bc);
      RectSum(SquaredErrors(inp, Extents(ny, nx)), Interior(nx, ny)) / ((nx - 2) * (ny - 2)) as real
  }

  /** Every cell term is the cell's squared error scaled by `1/((nx-2)(ny-2))`,
      so a sum of cell terms is the sum of squared errors over that count. */
  lemma TermsScaleSquaredErrors(inp: Inputs, g: Extents, r: Range2)
    requires Defined(inp.lib, inp.elapsed, inp.D) && Positive(g) && Fits(inp.A, r)
    ensures (g.nx - 2) * (g.ny - 2) > 0
    ensures Fits(Terms(inp, g), r) && Fits(SquaredErrors(inp, g), r)
    ensures RectSum(Terms(inp, g), r) == RectSum(SquaredErrors(inp, g), r) / ((g.nx - 2) * (g.ny - 2)) as real
    ensures RectSum(Terms(inp, g), r) == RectSum(SquaredErrors(inp, g), r) / ((g.ny - 2) * (g.nx - 2)) as real
  {
    CellsScale(inp, g, r);
    DividedRectSum(Terms(inp, g), SquaredErrors(inp, g), r, ((g.nx - 2) * (g.ny - 2)) as real);
    SwappedCount(RectSum(SquaredErrors(inp, g), r), g.nx - 2, g.ny - 2);
  }

  /** Dividing by `a * b` cells or by `b * a` cells is the same. */
  lemma SwappedCount(x: real, a: int, b: int)
    requires a * b != 0
    ensures b * a == a * b
    ensures x / (a * b) as real == x / (b * a) as real
  {
  }

  lemma CellsScale(inp: Inputs, g: Extents, r: Range2)
    requires Defined(inp.lib, inp.elapsed, inp.D) && Positive(g) && Fits(inp.A, r)
    ensures (g.nx - 2) * (g.ny - 2) > 0
    ensures Fits(Terms(inp, g), r) && Fits(SquaredErrors(inp, g), r)
    ensures forall j, i :: r.Contains(j, i) ==>
      Terms(inp, g)[j][i] == SquaredErrors(inp, g)[j][i] * (1.0 / ((g.nx - 2) * (g.ny - 2)) as real)
  {
    ProductPositive(g.nx - 2, g.ny - 2);
    forall j, i | r.Contains(j, i)
      ensures Terms(inp, g)[j][i] == SquaredErrors(inp, g)[j][i] * (1.0 / ((g.nx - 2) * (g.ny - 2)) as real)
    {
      CellTermScales(inp, g, j, i);
    }
  }

  lemma CellTermScales(inp: Inputs, g: Extents, j: int, i: int)
    requires Defined(inp.lib, inp.elapsed, inp.D) && Positive(g)
    requires 0 <= j < |inp.A| && 0 <= i < |inp.A[j]|
    ensures (g.nx - 2) * (g.ny - 2) > 0
    ensures Terms(inp, g)[j][i] == SquaredErrors(inp, g)[j][i] * (1.0 / ((g.nx - 2) * (g.ny - 2)) as real)
  {
    ProductPositive(g.nx - 2, g.ny - 2);
    var n := ((g.nx - 2) * (g.ny - 2)) as real;
    var e := Square(Superposed(inp, g, j, i) - inp.A[j][i]);
    assert Terms(inp, g)[j][i] == Quotient(e, n) == e / n;
    QuotientIsScaled(e, n);
  }

  lemma QuotientIsScaled(y: real, n: real)
    requires n != 0.0
    ensures y / n == y * (1.0 / n)
  {
  }

  /** The residual is a sum of squares: never negative, for every tiling. */
  lemma CheckSolutionNonnegative(lib: MathLib, A: Field, nx: int, ny: int, dx: real, dy: real,
                                 elapsed: real, D: real, bc: seq<seq<real>>, p: Plan)
    requires CheckArgs(lib, A, nx, ny, elapsed, D, bc, p)
    ensures CheckSolution(lib, A, nx, ny, dx, dy, elapsed, D, bc, p) >= 0.0
    ensures CheckSolutionCorrected(lib, A, nx, ny, dx, dy, elapsed, D, bc, p) >= 0.0
  {
    if !Interior(nx, ny).IsEmpty() {
      var inp := CheckInputs(lib, A, dx, dy, elapsed, D, bc);
      var r := Interior(nx, ny);
      var b := Body(Functor(inp, PerTile), 0.0);
      ReduceSumsTiles(b, p, r);
      PlanTotalNonnegative(b.f, p, r);
      var b' := Body(Functor(inp, Fixed(TileExtents(r))), 0.0);
      ReduceSumsTiles(b', p, r);
      PlanTotalNonnegative(b'.f, p, r);
    }
  }

  /** Only `bc[1][0]` matters: both sources use it, and the other three
      entries of the boundary table are never read. */
  lemma OnlyLowerLeftBoundaryMatters(lib: MathLib, A: Field, nx: int, ny: int, dx: real, dy: real,
                                     elapsed: real, D: real, bc: seq<seq<real>>, bc': seq<seq<real>>, p: Plan)
    requires CheckArgs(lib, A, nx, ny, elapsed, D, bc, p) && IsBoundary(bc')
    requires bc[1][0] == bc'[1][0]
    ensures CheckArgs(lib, A, nx, ny, elapsed, D, bc', p)
    ensures CheckSolution(lib, A, nx, ny, dx, dy, elapsed, D, bc, p)
         == CheckSolution(lib, A, nx, ny, dx, dy, elapsed, D, bc', p)
  {
    assert CheckInputs(lib, A, dx, dy, elapsed, D, bc) == CheckInputs(lib, A, dx, dy, elapsed, D, bc');
  }

  /** When one tile covers the whole interior, its own extents are the
      whole grid's, and the source computes the mean squared error. */
  lemma SingleTileIsMeanSquaredError(lib: MathLib, A: Field, nx: int, ny: int, dx: real, dy: real,
                                     elapsed: real, D: real, bc: seq<seq<real>>)
    requires CheckArgs(lib, A, nx, ny, elapsed, D, bc, Whole)
    ensures CheckSolution(lib, A, nx, ny, dx, dy, elapsed, D, bc, Whole)
         == MeanSquaredError(lib, A, nx, ny, dx, dy, elapsed, D, bc)
  {
    if !Interior(nx, ny).IsEmpty() {
      var r := Interior(nx, ny);
      assert TileExtents(r) == Extents(ny, nx);
      TermsScaleSquaredErrors(CheckInputs(lib, A, dx, dy, elapsed, D, bc), Extents(ny, nx), r);
    }
  }

  /** The corrected reduction gives the mean squared error for every tiling
      and every choice of stolen halves: the result is independent of the
      grain size and of the schedule. */
  lemma CorrectedIgnoresTiling(lib: MathLib, A: Field, nx: int, ny: int, dx: real, dy: real,
                               elapsed: real, D: real, bc: seq<seq<real>>, p: Plan)
    requires CheckArgs(lib, A, nx, ny, elapsed, D, bc, p)
    ensures CheckSolutionCorrected(lib, A, nx, ny, dx, dy, elapsed, D, bc, p)
         == MeanSquaredError(lib, A, nx, ny, dx, dy, elapsed, D, bc)
  {
    if !Interior(nx, ny).IsEmpty() {
      var r := Interior(nx, ny);
      var inp := CheckInputs(lib, A, dx, dy, elapsed, D, bc);
      var g := Extents(ny, nx);
      CorrectedSumsTerms(lib, A, nx, ny, dx, dy, elapsed, D, bc, p);
      TermsScaleSquaredErrors(inp, g, r);
      var total := RectSum(SquaredErrors(inp, g), r);
      assert MeanSquaredError(lib, A, nx, ny, dx, dy, elapsed, D, bc) == total / ((nx - 2) * (ny - 2)) as real;
    }
  }

  /** Whatever the plan, the corrected reduction adds every interior cell's
      term once, each computed with the whole interior's extents. */
  lemma CorrectedSumsTerms(lib: MathLib, A: Field, nx: int, ny: int, dx: real, dy: real,
                           elapsed: real, D: real, bc: seq<seq<real>>, p: Plan)
    requires CheckArgs(lib, A, nx, ny, elapsed, D, bc, p) && !Interior(nx, ny).IsEmpty()
    ensures Fits(Terms(CheckInputs(lib, A, dx, dy, elapsed, D, bc), Extents(ny, nx)), Interior(nx, ny))
    ensures CheckSolutionCorrected(lib, A, nx, ny, dx, dy, elapsed, D, bc, p)
         == RectSum(Terms(CheckInputs(lib, A, dx, dy, elapsed, D, bc), Extents(ny, nx)), Interior(nx, ny))
  {
    var r := Interior(nx, ny);
    var inp := CheckInputs(lib, A, dx, dy, elapsed, D, bc);
    assert TileExtents(r) == Extents(ny, nx);
    var b := Body(Functor(inp, Fixed(Extents(ny, nx))), 0.0);
    ReduceSumsTiles(b, p, r);
    FixedPlanTotal(b.f, p, r);
  }

  /** Every cell of `A` holds `a`. */
  predicate Uniform(A: Field, a: real) {
    forall j, i :: 0 <= j < |A| && 0 <= i < |A[j]| ==> A[j][i] == a
  }

  /** With source strength 0 the analytical solution vanishes, whatever `erf`
      and `sqrt` are, so a cell holding `a` has squared error `a * a`. */
  lemma ZeroSourceSquaredError(inp: Inputs, g: Extents, j: int, i: int)
    requires Defined(inp.lib, inp.elapsed, inp.D) && inp.c == 0.0
    requires 0 <= j < |inp.A| && 0 <= i < |inp.A[j]|
    ensures Square(Superposed(inp, g, j, i) - inp.A[j][i]) == inp.A[j][i] * inp.A[j][i]
  {
    assert Superposed(inp, g, j, i) == 0.0;
  }

  /** On a uniform field with zero source strength, every cell term under
      extents `g` is the common squared error over the cell count of `g`. */
  lemma UniformCellTerm(inp: Inputs, g: Extents, j: int, i: int, a: real)
    requires Defined(inp.lib, inp.elapsed, inp.D) && Positive(g) && inp.c == 0.0 && Uniform(inp.A, a)
    requires 0 <= j < |inp.A| && 0 <= i < |inp.A[j]|
    ensures (g.nx - 2) * (g.ny - 2) > 0
    ensures CellTerm(inp, g, j, i) == a * a / ((g.nx - 2) * (g.ny - 2)) as real
  {
    ZeroSourceSquaredError(inp, g, j, i);
    ProductPositive(g.nx - 2, g.ny - 2);
  }

  /** Under a tile's own extents, each cell term of a uniform field with
      zero source strength is the common squared error over the tile's cell
      count. */
  lemma UniformTileTerms(inp: Inputs, r: Range2, a: real)
    requires Defined(inp.lib, inp.elapsed, inp.D) && Fits(inp.A, r) && !r.IsEmpty()
    requires inp.c == 0.0 && Uniform(inp.A, a)
    ensures (r.rowHi - r.rowLo) * (r.colHi - r.colLo) > 0
    ensures forall j, i :: r.Contains(j, i) ==>
      Terms(inp, TileExtents(r))[j][i] == a * a / ((r.rowHi - r.rowLo) * (r.colHi - r.colLo)) as real
  {
    var g := TileExtents(r);
    assert g.nx - 2 == r.rowHi - r.rowLo && g.ny - 2 == r.colHi - r.colLo;
    ProductPositive(g.nx - 2, g.ny - 2);
    forall j, i | r.Contains(j, i)
      ensures Terms(inp, g)[j][i] == a * a / ((r.rowHi - r.rowLo) * (r.colHi - r.colLo)) as real
    {
      UniformCellTerm(inp, g, j, i, a);
    }
  }

  /** As written, a tile divides by its own cell count. On a uniform field
      with zero source strength every cell has the same squared error, so a
      tile of any size contributes exactly that error once. */
  lemma UniformTileSum(f: Functor, r: Range2, a: real)
    requires f.geometry == PerTile && Runnable(f) && Fits(f.inp.A, r) && !r.IsEmpty()
    requires f.inp.c == 0.0 && Uniform(f.inp.A, a)
    ensures TileSum(f, r) == a * a
  {
    UniformTileTerms(f.inp, r, a);
    EvenShares(Terms(f.inp, TileExtents(r)), r, a * a);
  }

  /** Every nonempty range of the field adds `e` to `my_rss`. */
  ghost predicate EveryTileAdds(f: Functor, e: real) {
    forall t: Range2 :: Runnable(f) && Fits(f.inp.A, t) && !t.IsEmpty() ==> TileSum(f, t) == e
  }

  /** As written, every tile of a uniform field with zero source strength
      adds the common squared error. */
  lemma UniformEveryTile(f: Functor, a: real)
    requires f.geometry == PerTile && f.inp.c == 0.0 && Uniform(f.inp.A, a)
    ensures EveryTileAdds(f, a * a)
  {
    forall t: Range2 | Runnable(f) && Fits(f.inp.A, t) && !t.IsEmpty()
      ensures TileSum(f, t) == a * a
    {
      UniformTileSum(f, t, a);
    }
  }

  /** When every tile adds the same `e`, a plan's total is `e` once per
      tile. */
  lemma {:induction false} PlanTotalCountsTiles(f: Functor, p: Plan, r: Range2, e: real)
    requires Runnable(f) && Fits(f.inp.A, r) && ValidPlan(p, r) && !r.IsEmpty()
    requires EveryTileAdds(f, e)
    ensures PlanTotal(f, p, r) == OncePerTile(p, e)
  {
    match p
    case Whole =>
    case Bisect(axis, mid, _, lo, up) =>
      PlanTotalCountsTiles(f, lo, Lower(r, axis, mid), e);
      PlanTotalCountsTiles(f, up, Upper(r, axis, mid), e);
  }

  /** `e` added once for each tile of `p`. */
  function OncePerTile(p: Plan, e: real): real {
    match p
    case Whole => e
    case Bisect(_, _, _, lo, up) => OncePerTile(lo, e) + OncePerTile(up, e)
  }

  /** On a uniform field `a` with `bc[1][0] = 0`, for every `erf`, `sqrt` and
      spacing, the as-written residual is `a * a` once per tile, so it grows
      with the number of tiles the scheduler makes. */
  lemma UniformFieldCountsTiles(lib: MathLib, A: Field, nx: int, ny: int, dx: real, dy: real,
                                elapsed: real, D: real, bc: seq<seq<real>>, p: Plan, a: real)
    requires CheckArgs(lib, A, nx, ny, elapsed, D, bc, p) && !Interior(nx, ny).IsEmpty()
    requires bc[1][0] == 0.0 && Uniform(A, a)
    ensures CheckSolution(lib, A, nx, ny, dx, dy, elapsed, D, bc, p) == OncePerTile(p, a * a)
  {
    var b := Body(Functor(CheckInputs(lib, A, dx, dy, elapsed, D, bc), PerTile), 0.0);
    ReduceSumsTiles(b, p, Interior(nx, ny));
    UniformEveryTile(b.f, a);
    PlanTotalCountsTiles(b.f, p, Interior(nx, ny), a * a);
  }

  /** On the same field the mean squared error is `a * a`, however the
      interior is cut. */
  lemma UniformFieldMean(lib: MathLib, A: Field, nx: int, ny: int, dx: real, dy: real,
                         elapsed: real, D: real, bc: seq<seq<real>>, a: real)
    requires IsField(A, nx, ny) && IsBoundary(bc) && !Interior(nx, ny).IsEmpty() && Defined(lib, elapsed, D)
    requires bc[1][0] == 0.0 && Uniform(A, a)
    ensures MeanSquaredError(lib, A, nx, ny, dx, dy, elapsed, D, bc) == a * a
  {
    var r := Interior(nx, ny);
    var inp := CheckInputs(lib, A, dx, dy, elapsed, D, bc);
    var E := SquaredErrors(inp, Extents(ny, nx));
    forall j, i | r.Contains(j, i)
      ensures E[j][i] == a * a
    {
      UniformSquaredError(inp, Extents(ny, nx), j, i, a);
    }
    ProductPositive(ny - 2, nx - 2);
    ConstantMean(E, r, a * a);
    assert (ny - 2) * (nx - 2) == (nx - 2) * (ny - 2);
  }

  lemma UniformSquaredError(inp: Inputs, g: Extents, j: int, i: int, a: real)
    requires Defined(inp.lib, inp.elapsed, inp.D) && inp.c == 0.0 && Uniform(inp.A, a)
    requires 0 <= j < |inp.A| && 0 <= i < |inp.A[j]|
    ensures SquaredErrors(inp, g)[j][i] == a * a
  {
    ZeroSourceSquaredError(inp, g, j, i);
  }

  /** The first cut of `blocked_range2d<int>(1, ny-1, 16, 1, nx-1, 16)` on a
      19 x 3 grid: its one interior row is not divisible by grain 16, its 17
      interior columns are, so TBB halves the columns at `1 + 17/2 = 9`,
      leaving two tiles of 8 and 9 columns that it does not cut again. */
  const GrainCut: Plan := Bisect(Cols, 9, true, Whole, Whole)

  /** The first cut of the same range on a 3 x 34 grid: 32 interior rows
      against one column, so TBB halves the rows at `1 + 32/2 = 17`, leaving
      two halves of 16 rows that grain 16 does not cut again. */
  const RowCut: Plan := Bisect(Rows, 17, true, Whole, Whole)

  /** As written, the right wall also moves with the tile: the upper tile of
      `RowCut` has local `nx = 18`, so at its first row the right-wall
      distance `dx * (nx - 2 - i)` is `-dx`, while the whole range places the
      same cell `15 dx` from the wall. */
  lemma RightWallIsTileLocal(inp: Inputs)
    requires inp.dx > 0.0
    ensures ValidPlan(RowCut, Interior(3, 34))
    ensures var lo, up := Lower(Interior(3, 34), Rows, 17), Upper(Interior(3, 34), Rows, 17);
            lo.rowHi - lo.rowLo <= 16 && up.rowHi - up.rowLo <= 16
    ensures Upper(Interior(3, 34), Rows, 17).Contains(1, 17)
    ensures RightDistance(inp, TileExtents(Upper(Interior(3, 34), Rows, 17)), 1, 17) == -inp.dx
    ensures RightDistance(inp, TileExtents(Interior(3, 34)), 1, 17) == 15.0 * inp.dx
  {
  }

  /** The as-written residual depends on the tiling, on a cut TBB makes with
      grain size 16: a 19 x 3 field holding `a != 0` everywhere, with
      `bc[1][0] = 0`, has mean squared error `a * a` for every `erf` and
      `sqrt`, but the source reports `2 a * a`. */
  lemma TilingChangesCheckSolution(lib: MathLib, A: Field, dx: real, dy: real, elapsed: real, D: real,
                                   bc: seq<seq<real>>, a: real)
    requires IsField(A, 19, 3) && Uniform(A, a) && a != 0.0
    requires IsBoundary(bc) && bc[1][0] == 0.0 && Defined(lib, elapsed, D)
    ensures CheckArgs(lib, A, 19, 3, elapsed, D, bc, GrainCut)
    ensures CheckSolution(lib, A, 19, 3, dx, dy, elapsed, D, bc, GrainCut) == 2.0 * (a * a)
    ensures MeanSquaredError(lib, A, 19, 3, dx, dy, elapsed, D, bc) == a * a
    ensures CheckSolution(lib, A, 19, 3, dx, dy, elapsed, D, bc, GrainCut)
         != MeanSquaredError(lib, A, 19, 3, dx, dy, elapsed, D, bc)
  {
    var e := Square(a);
    assert e != 0.0;
    assert Interior(19, 3) == Range2(1, 2, 1, 18);
    assert OncePerTile(GrainCut, e) == 2.0 * e;
    UniformFieldCountsTiles(lib, A, 19, 3, dx, dy, elapsed, D, bc, GrainCut, a);
    UniformFieldMean(lib, A, 19, 3, dx, dy, elapsed, D, bc, a);
  }
}

=== FILE: stencil.dfy ===
/**
  The Laplacian mask built by `set_mask` and the stencil sum that
  `ComputeConvolution2D` evaluates at one cell (cpu/tbb/discretization.c).
 */
module Stencil {
  import opened Grid

  /** What `set_mask` leaves behind: the radius it stores through `nm` and the
      mask buffer after its writes. */
  datatype MaskResult = MaskResult(nm: int, mask: Field)

  /** The mask buffer reaches the five cells `set_mask` writes. */
  predicate HoldsFivePoints(M: Field) {
    |M| >= 3 && |M[0]| >= 2 && |M[1]| >= 3 && |M[2]| >= 2
  }

  /** One of the five cells of the 5-point stencil: the centre and its
      orthogonal neighbours in a 3x3 mask. */
  predicate IsFivePoint(r: int, s: int) {
    (r == 1 && 0 <= s <= 2) || (s == 1 && (r == 0 || r == 2))
  }

  /** `set_mask`: the 5-point Laplacian for spacings `dx`, `dy`, written into
      the caller's buffer `M0`; every other entry keeps what the caller put
      there (the caller zero-fills it, so the corners end up zero). */
  function SetMask(dx: real, dy: real, M0: Field): (r: MaskResult)
    requires dx != 0.0 && dy != 0.0
    requires HoldsFivePoints(M0)
    ensures r.nm == 1
    ensures |r.mask| == |M0|
    ensures forall k :: 0 <= k < |M0| ==> |r.mask[k]| == |M0[k]|
    ensures forall k, s :: 0 <= k < |M0| && 0 <= s < |M0[k]| && !IsFivePoint(k, s) ==>
              r.mask[k][s] == M0[k][s]
    ensures r.mask[0][1] == r.mask[2][1] > 0.0
    ensures r.mask[1][0] == r.mask[1][2] > 0.0
  {
    var up := M0[0][1 := 1.0 / (dy * dy)];
    var mid := M0[1][0 := 1.0 / (dx * dx)][1 := -2.0 * (dx * dx + dy * dy) / (dx * dx * dy * dy)][2 := 1.0 / (dx * dx)];
    var down := M0[2][1 := 1.0 / (dy * dy)];
    MaskResult(1, M0[0 := up][1 := mid][2 := down])
  }

  /** Sum of the nine entries of the 3x3 block of a mask. */
  function Total3(M: Field): real
    requires |M| >= 3 && forall k :: 0 <= k < 3 ==> |M[k]| >= 3
  {
    M[0][0] + M[0][1] + M[0][2] + M[1][0] + M[1][1] + M[1][2] + M[2][0] + M[2][1] + M[2][2]
  }

  /** The corners of a 3x3 mask hold zero. */
  predicate ZeroCorners(M: Field)
    requires |M| >= 3 && forall k :: 0 <= k < 3 ==> |M[k]| >= 3
  {
    M[0][0] == 0.0 && M[0][2] == 0.0 && M[2][0] == 0.0 && M[2][2] == 0.0
  }

  /** A discrete Laplacian annihilates constants: over the reals the five
      coefficients `set_mask` writes cancel exactly, so the whole mask sums to
      zero when the caller zero-filled the corners. */
  lemma MaskSumsToZero(dx: real, dy: real, M0: Field)
    requires dx != 0.0 && dy != 0.0
    requires |M0| >= 3 && forall k :: 0 <= k < 3 ==> |M0[k]| >= 3
    requires ZeroCorners(M0)
    ensures Total3(SetMask(dx, dy, M0).mask) == 0.0
  {
    var M := SetMask(dx, dy, M0).mask;
    var ix, iy := 1.0 / (dx * dx), 1.0 / (dy * dy);
    assert M[1][1] == -2.0 * (dx * dx + dy * dy) / (dx * dx * dy * dy);
    assert (dx * dx + dy * dy) / (dx * dx * dy * dy) == iy + ix;
  }

  /** The mask reaches radius `nm`: it has `2 nm + 1` rows of `2 nm + 1`
      entries at least. */
  predicate MaskFits(M: Field, nm: int) {
    |M| >= 2 * nm + 1 && forall k :: 0 <= k < 2 * nm + 1 ==> |M[k]| >= 2 * nm + 1
  }

  /** Every read of the stencil centred on `(j, i)` stays inside `A` and `M`. */
  predicate WindowFits(A: Field, M: Field, nm: int, j: int, i: int) {
    nm >= 0 ==>
      && MaskFits(M, nm)
      && nm <= j < |A| - nm
      && forall r :: j - nm <= r <= j + nm ==> nm <= i < |A[r]| - nm
  }

  /** `sum_{mi = -nm}^{hi-1} M[mj+nm][mi+nm] * A[j+mj][i+mi]`, accumulated
      in the order of the innermost loop. */
  function MaskRow(A: Field, M: Field, nm: int, j: int, i: int, mj: int, hi: int): real
    requires nm >= 0 && WindowFits(A, M, nm, j, i)
    requires -nm <= mj <= nm && -nm <= hi <= nm + 1
    decreases hi + nm
  {
    if hi == -nm then 0.0
    else
      assert nm <= i < |A[j + mj]| - nm;
      MaskRow(A, M, nm, j, i, mj, hi - 1) + M[mj + nm][hi - 1 + nm] * A[j + mj][i + hi - 1]
  }

  /** `sum_{mj = -nm}^{hi-1}` of whole mask rows. */
  function MaskRows(A: Field, M: Field, nm: int, j: int, i: int, hi: int): real
    requires nm >= 0 && WindowFits(A, M, nm, j, i)
    requires -nm <= hi <= nm + 1
    decreases hi + nm
  {
    if hi == -nm then 0.0
    else MaskRows(A, M, nm, j, i, hi - 1) + MaskRow(A, M, nm, j, i, hi - 1, nm + 1)
  }

  /** The value `ComputeConvolution2D` stores at `C[j][i]`: the mask of
      radius `nm` applied to `A` around `(j, i)`. A negative radius makes both
      mask loops empty, leaving the initial `0.0`. */
  function Laplacian(A: Field, M: Field, nm: int, j: int, i: int): real
    requires WindowFits(A, M, nm, j, i)
  {
    if nm < 0 then 0.0 else MaskRows(A, M, nm, j, i, nm + 1)
  }

  /** At radius 1 the stencil sum is the nine products of the 3x3 window. */
  lemma NineTerms(A: Field, M: Field, j: int, i: int)
    requires WindowFits(A, M, 1, j, i)
    ensures 1 <= i < |A[j - 1]| - 1 && 1 <= i < |A[j]| - 1 && 1 <= i < |A[j + 1]| - 1
    ensures Laplacian(A, M, 1, j, i) ==
      M[0][0] * A[j-1][i-1] + M[0][1] * A[j-1][i] + M[0][2] * A[j-1][i+1] +
      M[1][0] * A[j][i-1]   + M[1][1] * A[j][i]   + M[1][2] * A[j][i+1] +
      M[2][0] * A[j+1][i-1] + M[2][1] * A[j+1][i] + M[2][2] * A[j+1][i+1]
  {
    forall mj | -1 <= mj <= 1
      ensures MaskRow(A, M, 1, j, i, mj, 2) ==
        M[mj + 1][0] * A[j + mj][i - 1] + M[mj + 1][1] * A[j + mj][i] + M[mj + 1][2] * A[j + mj][i + 1]
    {
      assert MaskRow(A, M, 1, j, i, mj, 0) == M[mj + 1][0] * A[j + mj][i - 1];
    }
    assert MaskRows(A, M, 1, j, i, 0) == MaskRow(A, M, 1, j, i, -1, 2);
  }

  /** With the mask of `set_mask` (corners zero, radius 1), a field that holds
      the same value `v` in every cell has a zero Laplacian at every interior
      cell. */
  lemma ConstantFieldHasZeroLaplacian(dx: real, dy: real, M0: Field, A: Field, nx: int, ny: int, v: real, j: int, i: int)
    requires dx != 0.0 && dy != 0.0
    requires |M0| >= 3 && forall k :: 0 <= k < 3 ==> |M0[k]| >= 3
    requires ZeroCorners(M0)
    requires IsField(A, nx, ny)
    requires forall jj, ii :: 0 <= jj < nx && 0 <= ii < ny ==> A[jj][ii] == v
    requires Interior(nx, ny).Contains(j, i)
    ensures WindowFits(A, SetMask(dx, dy, M0).mask, SetMask(dx, dy, M0).nm, j, i)
    ensures Laplacian(A, SetMask(dx, dy, M0).mask, SetMask(dx, dy, M0).nm, j, i) == 0.0
  {
    var M := SetMask(dx, dy, M0).mask;
    NineTerms(A, M, j, i);
    MaskSumsToZero(dx, dy, M0);
    assert Laplacian(A, M, 1, j, i) == Total3(M) * v;
  }

  /** The field `a (j dy)^2 + b (i dx)^2 + p j + q i + e` sampled on the grid:
      the first index steps by `dy` and the second by `dx`, matching the
      mask's "up/down" entries `1/dy^2` and "left/right" entries `1/dx^2`. */
  function Quadratic(dx: real, dy: real, a: real, b: real, p: real, q: real, e: real, j: int, i: int): real {
    a * (j as real * dy) * (j as real * dy) + b * (i as real * dx) * (i as real * dx) + p * j as real + q * i as real + e
  }

  /** The quadratic's second difference along the first index is `2 a dy^2`. */
  lemma SecondDifferenceAlongJ(dx: real, dy: real, a: real, b: real, p: real, q: real, e: real, j: int, i: int)
    ensures Quadratic(dx, dy, a, b, p, q, e, j - 1, i) + Quadratic(dx, dy, a, b, p, q, e, j + 1, i)
            - 2.0 * Quadratic(dx, dy, a, b, p, q, e, j, i) == 2.0 * a * (dy * dy)
  {
    var y := j as real * dy;
    assert (j - 1) as real * dy == y - dy && (j + 1) as real * dy == y + dy;
    assert a * (y - dy) * (y - dy) + a * (y + dy) * (y + dy) - 2.0 * (a * y * y) == 2.0 * a * (dy * dy);
  }

  /** The quadratic's second difference along the second index is `2 b dx^2`. */
  lemma SecondDifferenceAlongI(dx: real, dy: real, a: real, b: real, p: real, q: real, e: real, j: int, i: int)
    ensures Quadratic(dx, dy, a, b, p, q, e, j, i - 1) + Quadratic(dx, dy, a, b, p, q, e, j, i + 1)
            - 2.0 * Quadratic(dx, dy, a, b, p, q, e, j, i) == 2.0 * b * (dx * dx)
  {
    var x := i as real * dx;
    assert (i - 1) as real * dx == x - dx && (i + 1) as real * dx == x + dx;
    assert b * (x - dx) * (x - dx) + b * (x + dx) * (x + dx) - 2.0 * (b * x * x) == 2.0 * b * (dx * dx);
  }

  /** With the `set_mask` coefficients the stencil sum is the sum of the two
      centred second differences, scaled by `1/dy^2` and `1/dx^2`. */
  lemma FivePointForm(dx: real, dy: real, M0: Field, A: Field, nx: int, ny: int, j: int, i: int)
    requires dx != 0.0 && dy != 0.0
    requires |M0| >= 3 && forall k :: 0 <= k < 3 ==> |M0[k]| >= 3
    requires ZeroCorners(M0)
    requires IsField(A, nx, ny) && Interior(nx, ny).Contains(j, i)
    ensures WindowFits(A, SetMask(dx, dy, M0).mask, 1, j, i)
    ensures Laplacian(A, SetMask(dx, dy, M0).mask, 1, j, i) ==
      (A[j-1][i] + A[j+1][i] - 2.0 * A[j][i]) * (1.0 / (dy * dy)) +
      (A[j][i-1] + A[j][i+1] - 2.0 * A[j][i]) * (1.0 / (dx * dx))
  {
    var M := SetMask(dx, dy, M0).mask;
    NineTerms(A, M, j, i);
    var ix, iy := 1.0 / (dx * dx), 1.0 / (dy * dy);
    assert M[1][1] == -2.0 * ix - 2.0 * iy by {
      assert (dx * dx + dy * dy) / (dx * dx * dy * dy) == iy + ix;
    }
  }

  /** Consistency of the discretisation: the `set_mask` stencil differentiates
      every quadratic exactly, giving `2a + 2b`, the Laplacian of the
      underlying polynomial. */
  lemma QuadraticLaplacianIsExact(dx: real, dy: real, M0: Field, A: Field, nx: int, ny: int,
                                  a: real, b: real, p: real, q: real, e: real, j: int, i: int)
    requires dx != 0.0 && dy != 0.0
    requires |M0| >= 3 && forall k :: 0 <= k < 3 ==> |M0[k]| >= 3
    requires ZeroCorners(M0)
    requires IsField(A, nx, ny)
    requires forall jj, ii {:trigger Quadratic(dx, dy, a, b, p, q, e, jj, ii)} ::
               0 <= jj < nx && 0 <= ii < ny ==> A[jj][ii] == Quadratic(dx, dy, a, b, p, q, e, jj, ii)
    requires Interior(nx, ny).Contains(j, i)
    ensures WindowFits(A, SetMask(dx, dy, M0).mask, 1, j, i)
    ensures Laplacian(A, SetMask(dx, dy, M0).mask, 1, j, i) == 2.0 * a + 2.0 * b
  {
    FivePointForm(dx, dy, M0, A, nx, ny, j, i);
    var alongJ := A[j-1][i] + A[j+1][i] - 2.0 * A[j][i];
    var alongI := A[j][i-1] + A[j][i+1] - 2.0 * A[j][i];
    assert alongJ == 2.0 * a * (dy * dy) by {
      SecondDifferenceAlongJ(dx, dy, a, b, p, q, e, j, i);
    }
    assert alongI == 2.0 * b * (dx * dx) by {
      SecondDifferenceAlongI(dx, dy, a, b, p, q, e, j, i);
    }
    Combine(alongJ, alongI, a, b, dx, dy);
  }

  /** Scaling second differences `2 a dy^2` and `2 b dx^2` back by `1/dy^2`
      and `1/dx^2` leaves `2a + 2b`. */
  lemma Combine(alongJ: real, alongI: real, a: real, b: real, dx: real, dy: real)
    requires dx != 0.0 && dy != 0.0
    requires alongJ == 2.0 * a * (dy * dy) && alongI == 2.0 * b * (dx * dx)
    ensures alongJ * (1.0 / (dy * dy)) + alongI * (1.0 / (dx * dx)) == 2.0 * a + 2.0 * b
  {
    Unscale(2.0 * a, dy);
    Unscale(2.0 * b, dx);
  }

  /** Multiplying by `d^2` and by `1/d^2` cancels. */
  lemma Unscale(c: real, d: real)
    requires d != 0.0
    ensures c * (d * d) * (1.0 / (d * d)) == c
  {
    assert (d * d) * (1.0 / (d * d)) == 1.0;
  }

}

=== FILE: tiling.dfy ===
/**
  How TBB cuts a `blocked_range2d` into tiles.

  A range handed to `parallel_for` or `parallel_reduce` is either run whole by
  one task or bisected along one of its extents, recursively. The grain size
  (16 in cpu/tbb/discretization.c) only decides WHERE the scheduler stops
  cutting; the model lets the cut points be arbitrary, so every statement
  proved here holds for every grain size and every schedule.
 */
module Tiling {
  import opened Grid

  /** A recursive bisection of a range. In `Bisect`, `stolen` says whether the
      upper half was run by a split copy of the reduction body that is joined
      back afterwards (true), or by the same body right after the lower half
      (false); `parallel_for` ignores it. */
  datatype Plan =
    | Whole
    | Bisect(axis: Axis, mid: int, stolen: bool, lower: Plan, upper: Plan)

  /** Every cut of `p` falls strictly inside the extent it cuts, as TBB only
      splits a range that is divisible. */
  predicate ValidPlan(p: Plan, r: Range2) {
    match p
    case Whole => true
    case Bisect(axis, mid, _, lo, up) =>
      && (axis == Rows ==> r.rowLo < mid < r.rowHi)
      && (axis == Cols ==> r.colLo < mid < r.colHi)
      && ValidPlan(lo, Lower(r, axis, mid))
      && ValidPlan(up, Upper(r, axis, mid))
  }

  /** The tiles a plan produces, lower halves first. */
  function Leaves(p: Plan, r: Range2): seq<Range2> {
    match p
    case Whole => [r]
    case Bisect(axis, mid, _, lo, up) =>
      Leaves(lo, Lower(r, axis, mid)) + Leaves(up, Upper(r, axis, mid))
  }

  /** Whatever the cut points, the tiles of a valid plan partition the range:
      every cell of `r` lies in exactly one tile and no tile leaves `r`. */
  lemma {:induction false} LeavesPartition(p: Plan, r: Range2)
    requires ValidPlan(p, r)
    ensures IsPartition(Leaves(p, r), r)
  {
    match p
    case Whole =>
      var ts := Leaves(p, r);
      forall j, i | r.Contains(j, i)
        ensures exists k :: 0 <= k < |ts| && ts[k].Contains(j, i)
      {
        assert ts[0].Contains(j, i);
      }
    case Bisect(axis, mid, _, lo, up) =>
      var rl, ru := Lower(r, axis, mid), Upper(r, axis, mid);
      LeavesPartition(lo, rl);
      LeavesPartition(up, ru);
      var tl, tu := Leaves(lo, rl), Leaves(up, ru);
      var ts := tl + tu;
      assert ts == Leaves(p, r);
      forall k | 0 <= k < |ts|
        ensures ts[k].Inside(r)
      {
        if k < |tl| {
          assert tl[k].Inside(rl);
        } else {
          assert tu[k - |tl|].Inside(ru);
        }
      }
      forall j, i | r.Contains(j, i)
        ensures exists k :: 0 <= k < |ts| && ts[k].Contains(j, i)
      {
        if rl.Contains(j, i) {
          var k :| 0 <= k < |tl| && tl[k].Contains(j, i);
          assert ts[k] == tl[k];
        } else {
          assert ru.Contains(j, i);
          var k :| 0 <= k < |tu| && tu[k].Contains(j, i);
          assert ts[|tl| + k] == tu[k];
        }
      }
      forall k, k', j, i | 0 <= k < k' < |ts| && ts[k].Contains(j, i)
        ensures !ts[k'].Contains(j, i)
      {
        if k' < |tl| {
          assert ts[k] == tl[k] && ts[k'] == tl[k'];
        } else if |tl| <= k {
          assert ts[k] == tu[k - |tl|] && ts[k'] == tu[k' - |tl|];
        } else {
          assert tl[k].Inside(rl) && tu[k' - |tl|].Inside(ru);
        }
      }
  }
}
